=== FILE: README.md ===
# Employee console controller, modelled in Dafny

The Employee Management web console is a single page. A script keeps the
records it last fetched from `/api/employees` in a store. It also tracks which
record (if any) is being edited and what the form and the search box hold, and
it redraws the table body after every change. This project models that script,
`src/main/resources/static/script.js`, as pure functions over immutable data
and proves properties about them.

- `Ascii` (`ascii.dfy`): the string primitives the script relies on.
  - `trim()` and `toLowerCase()`, restricted to ASCII.
  - `String.prototype.includes`.
  - Printing an id as a decimal number and reading it back.
- `Html` (`html.dfy`): `escapeHtml`. A decoder, `Unescape`, is its partner: it shows that escaping loses nothing.
- `Email` (`email.dfy`): `isValidEmail`. The regular expression `^[^\s@]+@[^\s@]+\.[^\s@]+$` is written as a choice of split points. It is proved equal to a plain description of a well-formed address.
- `Employees` (`employees.dfy`): records, form drafts and the form, plus `employees.find` by id.
- `Validation` (`validation.dfy`): the checks at the head of `handleFormSubmit`, which trim the fields, reject blank fields first and reject a malformed email second.
- `Search` and `SearchProperties` (`search.dfy`, `search_properties.dfy`): the choice `filterEmployees` makes about which records to show.
- `Render` (`render.dfy`): what the table body shows. This is one of three things:
  - one row per record
  - the empty-state placeholder, "Add your first employee using the form on the left."
  - the no-match placeholder of a search, "No employees match your search criteria: …"

  Both placeholders carry the same "No employees found" heading; the model tells them apart by their paragraph.
- `App` (`app.dfy`): the page as a state machine. Each handler is a transition from a `State` to a `Step`, which holds:
  - the new state
  - the requests sent
  - the status messages shown, in order

  Every server answer and every answer to the `confirm` dialog is a parameter of the transition it belongs to.
- `AppProperties` (`app_properties.dfy`): properties that span several transitions:
  - the consistency every transition keeps
  - the two quirks of the script as written
  - the create–edit–update–delete walk-through of one record

Two behaviours of the script are modelled as written. Proofs exhibit both.

- The no-match placeholder interpolates the search term without escaping it.
- Whether an edit session is open is decided by JavaScript truthiness (`if (editingEmployeeId)`). A session opened on a record whose id is `0` therefore submits a create rather than an update.

Where the code and its written description differ, the model follows the code:

- The submit handler does not single out a 404 from `PUT`. It reports "Error saving employee. Please try again." as for any other failure.
- The success message of a create or update is shown before the response body is decoded. A body that then fails to decode adds the error message after it (`SavedUnreadable`).
- Deleting the record being edited, and reloading the store, both leave the edit session open.
- A reload shows the whole store but leaves the search box text in place.

## Model

| member | source | states |
|---|---|---|
| Ascii.Trim | src/main/resources/static/script.js:115-118 | `trim()`: the result neither starts nor ends with whitespace, and it is empty exactly when the field is all whitespace |
| Ascii.TrimIsInnerSlice | src/main/resources/static/script.js:115-118 | trimming cuts only whitespace, from the two ends: the result is a slice of the input with whitespace on both sides |
| Ascii.TrimIdempotent | src/main/resources/static/script.js:115-118 | trimming twice is the same as trimming once |
| Ascii.TrimFixesTrimmed | src/main/resources/static/script.js:115-118 | a non-empty text that neither starts nor ends with whitespace is left unchanged by `trim()` |
| Ascii.TrimStart | src/main/resources/static/script.js:115-118 | leading whitespace is dropped: the result is a suffix, what is dropped is whitespace, and the result does not start with whitespace |
| Ascii.TrimEnd | src/main/resources/static/script.js:115-118 | trailing whitespace is dropped: the result is a prefix, what is dropped is whitespace, and the result does not end with whitespace |
| Ascii.LowerChar | src/main/resources/static/script.js:268 | `toLowerCase()` on one character maps `A`–`Z` to `a`–`z` and leaves every other character alone |
| Ascii.Lower | src/main/resources/static/script.js:268 | `toLowerCase()` keeps the length and lower-cases each character in place |
| Ascii.LowerIsLower | src/main/resources/static/script.js:268 | a lower-cased text has no upper-case letter, and lower-casing it again changes nothing |
| Ascii.LowerKeepsSpace | src/main/resources/static/script.js:268 | lower-casing a text leaves it all whitespace exactly when it was all whitespace |
| Ascii.TrimKeepsLower | src/main/resources/static/script.js:268 | trimming a lower-cased text keeps it lower-case |
| Ascii.Includes | src/main/resources/static/script.js:277-281 | `includes`, trying start positions from the left. It has no contract of its own; Ascii.IncludesIsSubstring characterises it |
| Ascii.IncludesIsSubstring | src/main/resources/static/script.js:277-281 | `includes` holds exactly when the term occurs at some position of the text |
| Ascii.NatToDecimal | src/main/resources/static/script.js:281 | a natural number prints as a non-empty string of digits without a leading zero |
| Ascii.DecimalRoundTrip | src/main/resources/static/script.js:281 | reading a printed natural number back gives the number |
| Ascii.IntToDecimal | src/main/resources/static/script.js:78 | an id prints as digits with no leading zero, and it starts with `-` exactly when it is negative |
| Ascii.IntDecimalRoundTrip | src/main/resources/static/script.js:78 | reading a printed id back gives the id |
| Ascii.IntToDecimalInjective | src/main/resources/static/script.js:281 | two different ids never print the same, so the id column tells records apart |
| Html.EscapeChar | src/main/resources/static/script.js:301-308 | each of `&`, `<`, `>`, `"` and `'` becomes one of the five character references, and every other character is kept as it is; which reference each character gets is fixed by Html.UnescapeAfterEscapeChar |
| Html.EscapeHtml | src/main/resources/static/script.js:300-309 | the escaped text holds none of `<`, `>`, `"` or `'`, and is never shorter than the input |
| Html.UnescapeAfterEscapeChar | src/main/resources/static/script.js:301-308 | decoding one character's replacement, followed by any text, gives back that character, followed by the decoding of the text |
| Html.UnescapeEscape | src/main/resources/static/script.js:300-309 | decoding the escaped text gives back the original text |
| Html.EscapeInjective | src/main/resources/static/script.js:300-309 | two different texts never escape to the same markup |
| Html.EscapeConcat | src/main/resources/static/script.js:308 | escaping works character by character, so it distributes over concatenation |
| Html.EscapePlainText | src/main/resources/static/script.js:308 | text with none of the five special characters passes through unchanged |
| Html.EscapeAmpersandsAreEntities | src/main/resources/static/script.js:301-308 | every `&` in escaped output starts one of the five references |
| Email.IsValidEmail | src/main/resources/static/script.js:311-314 | `isValidEmail` holds when some placement of the `@` and the `.` makes the anchored pattern match. It has no contract of its own; Email.ValidEmailIffWellFormed characterises it |
| Email.MatchIsWellFormed | src/main/resources/static/script.js:311-314 | a text the regular expression accepts has no whitespace, has exactly one `@` (not first), and has a `.` after it that is neither next to the `@` nor last |
| Email.WellFormedMatches | src/main/resources/static/script.js:311-314 | every such well-formed text is accepted by the regular expression |
| Email.ValidEmailIffWellFormed | src/main/resources/static/script.js:311-314 | `isValidEmail` holds if and only if the address is well formed in that sense |
| Email.EmailExamples | src/main/resources/static/script.js:312 | concrete verdicts: `a@b.c` and `a@b.c.d` are accepted; `a@b`, `a@.c`, `a b@c.d` and `a@b@c.d` are rejected |
| Employees.FormOf | src/main/resources/static/script.js:200-204 | `editEmployee` fills the four visible inputs with the record's fields verbatim and the hidden input with its id in decimal |
| Employees.FormOfReadsBack | src/main/resources/static/script.js:200-204 | the filled form holds the whole record: the hidden input reads back as the record's id |
| Employees.FindById | src/main/resources/static/script.js:193 | `employees.find` finds nothing exactly when no record carries the id, and otherwise returns the first record that does |
| Validation.Validate | src/main/resources/static/script.js:113-131 | blank fields are rejected exactly when some field trims to empty; a malformed email is rejected exactly when no field is blank and the trimmed email fails `isValidEmail`; an accepted draft is the trimmed form, clean and with a valid email |
| Validation.RejectionMessage | src/main/resources/static/script.js:123-129 | "Please fill in all required fields." is shown exactly for blank fields, and "Please enter a valid email address." for a malformed email |
| Validation.MissingFieldsTakesPrecedence | src/main/resources/static/script.js:122-131 | a form with a blank field and a malformed email is reported as having a blank field |
| Validation.TrimDraft | src/main/resources/static/script.js:113-119 | trimming the four fields empties exactly the blank ones, and a draft with no blank field trims to a clean one: no field empty or padded |
| Validation.TrimDraftFixesClean | src/main/resources/static/script.js:115-118 | trimming leaves a draft with no blank or padded field unchanged |
| Validation.CleanValidDraftAccepted | src/main/resources/static/script.js:113-131 | a clean draft with a valid email is accepted unchanged |
| Validation.ValidateIdempotent | src/main/resources/static/script.js:113-131 | validating an accepted draft a second time accepts it again, unchanged |
| Search.NormalizeTerm | src/main/resources/static/script.js:268 | the search term is lower-case, it is empty exactly when the search box holds only whitespace, and otherwise it neither starts nor ends with whitespace |
| Search.TrimmedLowerFacts | src/main/resources/static/script.js:268 | trimming the lower-cased box text gives a lower-case text, empty exactly when the box text is all whitespace |
| Search.NormalizeTermIsTrimmedLower | src/main/resources/static/script.js:268 | the term is a slice of the lower-cased box text with only whitespace cut from its two ends |
| Search.MatchesTerm | src/main/resources/static/script.js:276-282 | the `filter` callback: the term is included in the lower-cased first name, last name, email or role, or in the id's decimal text. It has no contract of its own; Search.MatchesTermMeaning characterises it |
| Search.MatchesTermMeaning | src/main/resources/static/script.js:275-283 | a record matches exactly when the term occurs in its lower-cased first name, last name, email or role, or in its decimal id |
| Search.SelectFrom | src/main/resources/static/script.js:275 | `filter`: every element it keeps is accepted by the callback, and it never yields more elements than it is given; Search.SelectionHasIndices characterises it fully |
| Search.SelectFromReadsKept | src/main/resources/static/script.js:275 | `filter` reads the input through ascending indices of accepted elements |
| Search.KeptFromExact | src/main/resources/static/script.js:275 | those indices are exactly the positions whose element the callback accepts |
| Search.SelectionHasIndices | src/main/resources/static/script.js:275 | `filter` picks its output through ascending input positions, and a position is picked exactly when the callback accepts its element |
| Search.MatchingIsOrderedSelection | src/main/resources/static/script.js:275-283 | the records `filter` keeps are read through ascending store positions, and a position is kept exactly when its record matches the term |
| Search.FilterEmployees | src/main/resources/static/script.js:267-285 | a blank term shows the whole store; otherwise the records shown are records of the store and are no more than the store holds |
| SearchProperties.FilterIsOrderedSelection | src/main/resources/static/script.js:267-285 | for a non-blank term, the records shown are exactly the matching records, each once, in store order |
| Render.RenderRow | src/main/resources/static/script.js:76-91 | a row prints the id in its canonical decimal form, as `${employee.id}` does, shows the four text fields escaped, has both buttons carry the record's id, and has no cell holding a markup character |
| Render.RenderRowReadsBack | src/main/resources/static/script.js:76-91 | reading a row's cells back gives the record it was drawn from |
| Render.RenderEmployeeTable | src/main/resources/static/script.js:70-107 | an empty list shows the add-your-first-employee placeholder and nothing else does; otherwise there is one markup-free row per record, in order, its buttons carrying that record's id |
| Render.TableReadsBack | src/main/resources/static/script.js:70-95 | a non-empty table reads back, row by row and in order, as the list it was drawn from |
| Render.RenderSearch | src/main/resources/static/script.js:267-297 | a blank term shows the whole store; a non-blank one shows the no-match placeholder exactly when nothing matches, naming the normalised term, and otherwise the matches; the add-your-first-employee placeholder appears only for an empty store |
| Render.NoMatchMessage | src/main/resources/static/script.js:292 | the no-match paragraph: the fixed prefix, the term, then a closing double quote. It has no contract of its own; Render.MessageShowsTerm and Render.NoMatchMessageKeepsTag characterise it |
| Render.MessageShowsTerm | src/main/resources/static/script.js:292 | the no-match message holds the term verbatim, straight after its fixed prefix |
| Render.NoMatchShowsRawTerm | src/main/resources/static/script.js:287-296 | when a search ends in the no-match placeholder, the normalised (lower-cased, trimmed) term occurs in it verbatim, unescaped |
| Render.NormalizeTag | src/main/resources/static/script.js:268 | the search term `<b>` passes lower-casing and trimming unchanged |
| Render.EmptyStoreNoMatch | src/main/resources/static/script.js:285-296 | over an empty store, every non-blank search ends in the no-match placeholder for its normalised term |
| Render.NoMatchPrefixHasNoTag | src/main/resources/static/script.js:292 | the fixed text in front of the term holds no `<` |
| Render.NoMatchMessageKeepsTag | src/main/resources/static/script.js:292 | the no-match message holds a `<` exactly when the term does, because the term is copied unescaped |
| Render.NoMatchIsNotEscaped | src/main/resources/static/script.js:287-296 | when a search ends in the no-match placeholder and the normalised term holds a `<`, the placeholder text holds a `<` too, which no cell of a rendered row ever does |
| App.LoadEmployees | src/main/resources/static/script.js:48-67 | one `GET` is sent. A decoded answer replaces the store and shows it whole, with "Loaded n employees". A failure keeps the store, shows the empty-state placeholder and reports the error. Session, form and search box are untouched |
| App.ClearForm | src/main/resources/static/script.js:259-264 | the session ends, the form is emptied and the button reads "Add Employee"; store, search box and table stay |
| App.EditEmployee | src/main/resources/static/script.js:192-215 | for an id in the store, a session opens on that id, "Update Employee" is shown and the form is filled from the first record carrying that id; otherwise only "Employee not found!" is shown. No request is sent |
| App.Truthy | src/main/resources/static/script.js:136 | `if (editingEmployeeId)`: a session id is truthy when it is present and not 0. It has no contract of its own; App.SaveRequest and App.SavedMessage branch on it, and AppProperties.ZeroSessionSubmitsCreate exhibits the 0 case |
| App.SaveRequest | src/main/resources/static/script.js:136-140 | an update of the session's id is sent exactly when the session id is truthy (present and not 0), and a create otherwise, with the trimmed draft as body |
| App.SavedMessage | src/main/resources/static/script.js:136-187 | a truthy session reports "Employee updated successfully!", and no session or a session on 0 reports "Employee added successfully!" |
| App.SaveDraft | src/main/resources/static/script.js:133-189 | the save request goes out first. A decoded success shows the added or updated message, then clears the form, ends the session and reloads. An unreadable success shows that message and then "Error saving employee. Please try again."; a not-found or failed request shows only the error. Every failure keeps the state and sends nothing more |
| App.Submit | src/main/resources/static/script.js:110-150 | a form with a blank field, or a malformed email, changes nothing, sends nothing and shows the matching message; an accepted form is saved trimmed |
| App.DeleteEmployee | src/main/resources/static/script.js:218-256 | an id outside the store reports "Employee not found!"; a declined confirmation sends nothing, shows nothing and changes nothing; a confirmed delete goes out; a 404 reports "Employee not found!", another failure "Error deleting employee. Please try again.", and a success "Employee deleted successfully!" before the reload's messages; the edit session and the form are never touched |
| App.EscapePressed | src/main/resources/static/script.js:327-332 | Escape ends the session, empties form and search box, and shows the whole store as a search for the empty term would |
| App.SearchTyped | src/main/resources/static/script.js:267-297 | typing in the search box sets its text and redraws the table as the search for that text; nothing else in the state changes, and a table of rows shows the filtered records |
| App.FormTyped | src/main/resources/static/script.js:113-118 | typing into the form changes the four visible inputs and nothing else |
| AppProperties.InitialIsConsistent | src/main/resources/static/script.js:5-6 | before the first load there is no edit session, the button reads "Add Employee", and the empty table shows nothing outside the store |
| AppProperties.RenderedStoreIsShown | src/main/resources/static/script.js:70-95 | a table drawn from records of the store shows only rows that read back as records of the store, each row's buttons carrying its record's id |
| AppProperties.LoadKeepsConsistent | src/main/resources/static/script.js:48-67 | a load, successful or not, keeps the label in step with the session and the table within the store |
| AppProperties.NextKeepsConsistent | src/main/resources/static/script.js:17-332 | every handler keeps the submit button's label in step with the edit session, and keeps every row of the table a record of the current store |
| AppProperties.RunKeepsConsistent | src/main/resources/static/script.js:17-332 | every state reached by any sequence of events from a consistent state is consistent |
| AppProperties.EditZeroOpensSession | src/main/resources/static/script.js:192-207 | editing a record whose id is 0 opens a session on 0 with "Update Employee" shown and the form filled from the record |
| AppProperties.ZeroSessionSubmitsCreate | src/main/resources/static/script.js:136-140 | in a session on id 0, an accepted submission sends a create, not an update |
| AppProperties.ZeroIdSubmitsCreate | src/main/resources/static/script.js:136-207 | the truthiness quirk end to end: the button says "Update Employee" for record 0, yet submitting sends a create |
| AppProperties.DeleteLeavesStaleSession | src/main/resources/static/script.js:218-256 | deleting the record under edit leaves the session pointing at an id no longer in the store |
| AppProperties.FailedSaveKeepsForm | src/main/resources/static/script.js:144-146 | a failed or unreadable save leaves store, session and form as they were, so the user can retry |
| AppProperties.EscapeIdempotent | src/main/resources/static/script.js:327-332 | pressing Escape twice is the same as pressing it once |
| AppProperties.SubmitValidCreates | src/main/resources/static/script.js:113-143 | outside a truthy session, any form that validation accepts, padded or not, sends a create of its trimmed fields then a reload, and ends with the form cleared and the store reloaded |
| AppProperties.SubmitValidUpdates | src/main/resources/static/script.js:113-143 | in a truthy session, any form that validation accepts sends an update of the session id with its trimmed fields then a reload, and ends the same way |
| AppProperties.LoadKeepsStore | src/main/resources/static/script.js:57-58 | a decoded load puts the records in the store and on screen, and leaves the session as it was |
| AppProperties.WalkthroughCreate | src/main/resources/static/script.js:133-166 | on an empty store, submitting an accepted draft sends it as a create; the reload then shows the new record as the only row |
| AppProperties.WalkthroughEdit | src/main/resources/static/script.js:192-214 | editing the only record opens a session on its id with the form filled from it |
| AppProperties.WalkthroughUpdate | src/main/resources/static/script.js:136-187 | in that session, another accepted draft is sent as an update of the id, and the reload shows the updated record |
| AppProperties.WalkthroughDelete | src/main/resources/static/script.js:218-249 | deleting the only record with confirmation sends the delete; the empty reload shows the add-your-first-employee placeholder |
| AppProperties.SampleDraftsAreValid | src/main/resources/static/script.js:113-131 | the drafts Ann / Lee / ann@x.com with role Eng, and with role Lead, pass validation unchanged |

## Left out

- Render.Table: `NoEmployees` and `NoMatch` leave out the `<h3>No employees found</h3>` heading the two placeholders share, and the `<tr>`/`<td>` markup around every row. `NoMatch` keeps only the text of its paragraph.
- The DOM is not modelled. The table body and the form inputs are data; the status line is a list of messages in the order shown.
- Expiry of a status message after three seconds (`setTimeout`) is not modelled. A later message simply follows an earlier one.
- The loading spinner (`showLoading`/`hideLoading`) has no effect on data, so it is left out.
- Page scrolling in `editEmployee`, `searchInput.blur()` and `console.error` are left out for the same reason.
- `fetch` and JSON decoding are not modelled. Each answer is a parameter of the transition (`LoadOutcome`, `SaveOutcome`, `DeleteOutcome`).
- The record returned by a successful create or update is not modelled, since the script discards it.
- Concurrency is not modelled: a handler runs to completion before the next event. Two requests that interleave (a second click while a save is in flight) are left out.
- The text of the `confirm` prompt is not modelled; only its answer is a parameter.
- Ctrl/Cmd+Enter is left out: it only dispatches the same submit event when an input has focus.
- The auto-refresh block is commented out in the script, so it is left out.
- `index.html` is not part of this model. Three facts about the page are taken on trust:
  - `App.Initial` takes the table body to start empty and the submit button to first read "Add Employee".
  - `Employees.EmptyForm` takes `employeeForm.reset()` to leave every input empty, as it does when the inputs carry no default values.
  - The `App.SearchInput` event takes some search-box event to call `filterEmployees`; the script itself attaches no such listener, so the page would have to.
- The Java server (controller, service, repository) is not part of this model. Server answers are free parameters, so some answer sequences this particular server would never give are also covered.
- Ascii.Trim: whitespace is the ASCII set (space, tab, line feed, vertical tab, form feed, carriage return). JavaScript's `trim()` and the regular expression's `\s` also accept Unicode spaces and line terminators.
- Ascii.Lower: only `A`–`Z` are lower-cased. JavaScript's `toLowerCase()` also maps non-ASCII letters.
- Ascii.IntToDecimal: ids are unbounded integers printed in plain decimal. JavaScript prints very large numbers in exponent notation.
- Employees.Employee: ids are integers, so fractional or missing ids from a malformed server answer are left out.
- Employees.Employee: names, email and role are strings, so a null field (where `toLowerCase` would throw) is left out.
- App.Next: the dispatcher has no contract of its own. Its content is `AppProperties.NextKeepsConsistent` and the contracts of the transitions it selects.

=== FILE: app.dfy ===
/**
 The console's controller: the record store `employees`, the edit session
 `editingEmployeeId`, the form, the search box and the table body, driven by
 the script's event handlers. Each network answer and each `confirm` answer is
 an input of the transition it belongs to; a transition reports the requests it
 sent and the status messages it showed, in order.
 */
module App {

  import opened Wrappers
  import opened Ascii
  import opened Employees
  import opened Validation
  import opened Search
  import opened Render
  import opened Email

  datatype Kind = Success | Failure | Information

  /** One `showStatusMessage` call; a later one replaces an earlier one on screen. */
  datatype Notice = Notice(message: string, kind: Kind)

  /** A request to `/api/employees`. */
  datatype Request = ListRequest | CreateRequest(body: Draft) | UpdateRequest(id: int, body: Draft) | DeleteRequest(id: int)

  /** The answer to `GET`: a decoded array, or a failure (bad status, no server, unreadable body). */
  datatype LoadOutcome = Loaded(records: seq<Employee>) | LoadFailed

  /**
   The answer to `POST` or `PUT`: success, a 404, any other failure, or a success
   status whose body then fails to decode.
   */
  datatype SaveOutcome = Saved | SaveNotFound | SaveFailed | SavedUnreadable

  /** The answer to `DELETE`: success, a 404, or any other failure. */
  datatype DeleteOutcome = Deleted | DeleteNotFound | DeleteFailed

  datatype State = State(
    employees: seq<Employee>,
    editingId: Option<int>,
    form: Form,
    submitLabel: string,
    search: string,
    table: Table)

  /** A transition's result: the new state, the requests sent, the messages shown. */
  datatype Step = Step(state: State, requests: seq<Request>, notices: seq<Notice>)

  /** What the user does; the answers the page receives travel with the action that caused them. */
  datatype Event =
    | PageLoad(load: LoadOutcome)
    | FormInput(fields: Draft)
    | SearchInput(text: string)
    | EditClick(id: int)
    | SubmitForm(save: SaveOutcome, reload: LoadOutcome)
    | DeleteClick(id: int, confirmed: bool, outcome: DeleteOutcome, reload: LoadOutcome)
    | EscapeKey

  const AddLabel: string := "Add Employee"
  const UpdateLabel: string := "Update Employee"
  const LoadErrorMessage: string := "Error loading employees. Please check if the server is running."
  const AddedMessage: string := "Employee added successfully!"
  const UpdatedMessage: string := "Employee updated successfully!"
  const SaveErrorMessage: string := "Error saving employee. Please try again."
  const NotFoundMessage: string := "Employee not found!"
  const ReadyToEditMessage: string := "Ready to edit employee. Make your changes and click Update."
  const DeletedMessage: string := "Employee deleted successfully!"
  const DeleteErrorMessage: string := "Error deleting employee. Please try again."

  /** The page before its first load: an empty store, no edit session, an empty table body. */
  const Initial: State := State([], None, EmptyForm, AddLabel, "", Rows([]))

  function LoadedMessage(n: nat): string {
    "Loaded " + NatToDecimal(n) + " employees"
  }

  /**
   `loadEmployees`: a successful answer replaces the store wholesale and shows it
   unfiltered; a failure keeps the store but shows the empty-state placeholder.
   Nothing else changes.
   */
  function LoadEmployees(st: State, outcome: LoadOutcome): (s: Step)
    ensures s.requests == [ListRequest] && |s.notices| == 1
    ensures outcome.Loaded? ==> && s.state == st.(employees := outcome.records, table := RenderEmployeeTable(outcome.records))
                                && s.notices[0] == Notice(LoadedMessage(|outcome.records|), Success)
    ensures outcome.LoadFailed? ==> && s.state == st.(table := NoEmployees)
                                    && s.notices[0] == Notice(LoadErrorMessage, Failure)
  {
    match outcome
    case Loaded(records) =>
      Step(st.(employees := records, table := RenderEmployeeTable(records)), [ListRequest],
           [Notice(LoadedMessage(|records|), Success)])
    case LoadFailed =>
      Step(st.(table := NoEmployees), [ListRequest], [Notice(LoadErrorMessage, Failure)])
  }

  /** `clearForm`: ends the edit session and empties the form; store, search box and table stay. */
  function ClearForm(st: State): (s: State)
    ensures s.editingId == None && s.form == EmptyForm && s.submitLabel == AddLabel
    ensures s.employees == st.employees && s.search == st.search && s.table == st.table
  {
    st.(form := EmptyForm, editingId := None, submitLabel := AddLabel)
  }

  /**
   `editEmployee(id)`: for an id in the store, opens an edit session on it and
   fills the form from the first record with that id; for any other id, only
   reports that it was not found.
   */
  function EditEmployee(st: State, id: int): (s: Step)
    ensures s.requests == [] && |s.notices| == 1
    ensures !HasId(st.employees, id) ==> s.state == st && s.notices == [Notice(NotFoundMessage, Failure)]
    ensures HasId(st.employees, id) ==>
              && s.state == st.(editingId := Some(id), submitLabel := UpdateLabel, form := s.state.form)
              && s.state.form == FormOf(FindById(st.employees, id).value)
              && s.notices == [Notice(ReadyToEditMessage, Information)]
  {
    match FindById(st.employees, id)
    case None => Step(st, [], [Notice(NotFoundMessage, Failure)])
    case Some(e) =>
      Step(st.(form := FormOf(e), editingId := Some(id), submitLabel := UpdateLabel), [],
           [Notice(ReadyToEditMessage, Information)])
  }

  /** `if (editingEmployeeId)`: JavaScript truthiness, under which `null` and the id `0` are both false. */
  predicate Truthy(editing: Option<int>) {
    editing.Some? && editing.value != 0
  }

  /** The request a submission of `draft` sends: an update of the edited id, or a create. */
  function SaveRequest(editing: Option<int>, draft: Draft): (r: Request)
    ensures Truthy(editing) <==> r.UpdateRequest?
    ensures r.UpdateRequest? ==> r == UpdateRequest(editing.value, draft)
    ensures r.CreateRequest? ==> r == CreateRequest(draft)
  {
    if Truthy(editing) then UpdateRequest(editing.value, draft) else CreateRequest(draft)
  }

  /** The message a successful save shows: "updated" for a truthy session, "added" otherwise. */
  function SavedMessage(editing: Option<int>): (m: string)
    ensures Truthy(editing) <==> m == UpdatedMessage
    ensures !Truthy(editing) <==> m == AddedMessage
  {
    if Truthy(editing) then UpdatedMessage else AddedMessage
  }

  /**
   The `try` block of `handleFormSubmit` for a draft that passed validation: the
   save request goes out, and only a decoded success clears the form, ends the
   edit session and reloads the store.
   */
  function SaveDraft(st: State, draft: Draft, save: SaveOutcome, reload: LoadOutcome): (s: Step)
    ensures |s.requests| >= 1 && s.requests[0] == SaveRequest(st.editingId, draft)
    ensures save == Saved ==>
              && s.requests == [SaveRequest(st.editingId, draft), ListRequest]
              && s.state == LoadEmployees(ClearForm(st), reload).state
              && s.notices == [Notice(SavedMessage(st.editingId), Success)] + LoadEmployees(ClearForm(st), reload).notices
    ensures save == SavedUnreadable ==>
              s.notices == [Notice(SavedMessage(st.editingId), Success), Notice(SaveErrorMessage, Failure)]
    ensures save == SaveNotFound || save == SaveFailed ==> s.notices == [Notice(SaveErrorMessage, Failure)]
    ensures save != Saved ==>
              && s.state == st && s.requests == [SaveRequest(st.editingId, draft)]
              && |s.notices| > 0 && s.notices[|s.notices| - 1] == Notice(SaveErrorMessage, Failure)
  {
    var request := SaveRequest(st.editingId, draft);
    var done := SavedMessage(st.editingId);
    match save
    case Saved =>
      var loaded := LoadEmployees(ClearForm(st), reload);
      Step(loaded.state, [request] + loaded.requests, [Notice(done, Success)] + loaded.notices)
    case SavedUnreadable =>
      Step(st, [request], [Notice(done, Success), Notice(SaveErrorMessage, Failure)])
    case SaveNotFound =>
      Step(st, [request], [Notice(SaveErrorMessage, Failure)])
    case SaveFailed =>
      Step(st, [request], [Notice(SaveErrorMessage, Failure)])
  }

  /**
   `handleFormSubmit`: a form that fails validation sends nothing and changes
   nothing, with the blank-field message ahead of the bad-email one; a form
   that passes goes to `SaveDraft` trimmed.
   */
  function Submit(st: State, save: SaveOutcome, reload: LoadOutcome): (s: Step)
    ensures HasBlankField(st.form.fields) ==> s == Step(st, [], [Notice(MissingFieldsMessage, Failure)])
    ensures !HasBlankField(st.form.fields) && !IsValidEmail(Trim(st.form.fields.email)) ==>
              s == Step(st, [], [Notice(InvalidEmailMessage, Failure)])
    ensures Validate(st.form.fields).Accepted? ==> s == SaveDraft(st, Validate(st.form.fields).draft, save, reload)
  {
    var v := Validate(st.form.fields);
    if !v.Accepted? then Step(st, [], [Notice(RejectionMessage(v), Failure)])
    else SaveDraft(st, v.draft, save, reload)
  }

  /**
   `deleteEmployee(id)`: an id missing from the store or a declined confirmation
   sends nothing and changes nothing; a 404 or a failure is reported and the
   store kept; a success reloads the store. The edit session is left alone.
   */
  function DeleteEmployee(st: State, id: int, confirmed: bool, outcome: DeleteOutcome, reload: LoadOutcome): (s: Step)
    ensures !HasId(st.employees, id) ==> s == Step(st, [], [Notice(NotFoundMessage, Failure)])
    ensures !confirmed ==> s.state == st && s.requests == []
    ensures HasId(st.employees, id) && !confirmed ==> s.notices == []
    ensures HasId(st.employees, id) && confirmed && outcome == DeleteNotFound ==> s.notices == [Notice(NotFoundMessage, Failure)]
    ensures HasId(st.employees, id) && confirmed && outcome == DeleteFailed ==> s.notices == [Notice(DeleteErrorMessage, Failure)]
    ensures HasId(st.employees, id) && confirmed && outcome == Deleted ==>
              s.notices == [Notice(DeletedMessage, Success)] + LoadEmployees(st, reload).notices
    ensures HasId(st.employees, id) && confirmed ==> |s.requests| >= 1 && s.requests[0] == DeleteRequest(id)
    ensures HasId(st.employees, id) && confirmed && outcome != Deleted ==> s.state == st && s.requests == [DeleteRequest(id)]
    ensures HasId(st.employees, id) && confirmed && outcome == Deleted ==>
              && s.state == LoadEmployees(st, reload).state
              && s.requests == [DeleteRequest(id), ListRequest]
    ensures s.state.editingId == st.editingId && s.state.form == st.form && s.state.submitLabel == st.submitLabel
  {
    match FindById(st.employees, id)
    case None => Step(st, [], [Notice(NotFoundMessage, Failure)])
    case Some(_) =>
      if !confirmed then Step(st, [], [])
      else
        match outcome
        case Deleted =>
          var loaded := LoadEmployees(st, reload);
          Step(loaded.state, [DeleteRequest(id)] + loaded.requests, [Notice(DeletedMessage, Success)] + loaded.notices)
        case DeleteNotFound =>
          Step(st, [DeleteRequest(id)], [Notice(NotFoundMessage, Failure)])
        case DeleteFailed =>
          Step(st, [DeleteRequest(id)], [Notice(DeleteErrorMessage, Failure)])
  }

  /** The Escape key: clear the form, empty the search box, show the whole store. */
  function EscapePressed(st: State): (s: State)
    ensures s.editingId == None && s.form == EmptyForm && s.submitLabel == AddLabel && s.search == []
    ensures s.employees == st.employees
    ensures s.table == RenderSearch(st.employees, s.search)
  {
    ClearForm(st).(search := "", table := RenderEmployeeTable(st.employees))
  }

  /** Typing in the search box: the table shows `filterEmployees`' view and the store is untouched. */
  function SearchTyped(st: State, text: string): (s: State)
    ensures s == st.(search := text, table := s.table)
    ensures s.table == RenderSearch(st.employees, text)
    ensures s.table.Rows? ==> s.table == RenderEmployeeTable(FilterEmployees(st.employees, text))
  {
    st.(search := text, table := RenderSearch(st.employees, text))
  }

  /** Typing into the form: only the four visible fields change. */
  function FormTyped(st: State, fields: Draft): (s: State)
    ensures s.form.fields == fields && s.form.idField == st.form.idField
    ensures s == st.(form := s.form)
  {
    st.(form := st.form.(fields := fields))
  }

  function Next(st: State, ev: Event): Step {
    match ev
    case PageLoad(load) => LoadEmployees(st, load)
    case FormInput(fields) => Step(FormTyped(st, fields), [], [])
    case SearchInput(text) => Step(SearchTyped(st, text), [], [])
    case EditClick(id) => EditEmployee(st, id)
    case SubmitForm(save, reload) => Submit(st, save, reload)
    case DeleteClick(id, confirmed, outcome, reload) => DeleteEmployee(st, id, confirmed, outcome, reload)
    case EscapeKey => Step(EscapePressed(st), [], [])
  }

}

=== FILE: app_properties.dfy ===
/**
 Properties of the console's controller that span several transitions: the
 consistency it keeps, the two quirks of the script as written, and the
 create-edit-update-delete walk-through of a single record.
 */
module AppProperties {

  import opened Wrappers
  import opened Ascii
  import opened Email
  import opened Employees
  import opened Validation
  import opened Search
  import opened Render
  import opened App

  /** The submit button reads "Update Employee" exactly while an edit session is open. */
  predicate LabelMatchesSession(st: State) {
    st.submitLabel == (if st.editingId.Some? then UpdateLabel else AddLabel)
  }

  /** A row that reads back to a record of the store, its buttons carrying that record's id. */
  predicate RowShowsRecord(row: Row, store: seq<Employee>) {
    IsDecimal(row.idCell) && ReadRow(row) in store && row.actionId == ReadRow(row).id
  }

  /** The table body shows nothing but records of the current store. */
  predicate TableFromStore(st: State) {
    st.table.Rows? ==> forall k :: 0 <= k < |st.table.rows| ==> RowShowsRecord(st.table.rows[k], st.employees)
  }

  predicate Consistent(st: State) {
    LabelMatchesSession(st) && TableFromStore(st)
  }

  lemma InitialIsConsistent()
    ensures Consistent(Initial)
  {
  }

  lemma RenderedStoreIsShown(st: State, list: seq<Employee>)
    requires forall k :: 0 <= k < |list| ==> list[k] in st.employees
    requires st.table == RenderEmployeeTable(list)
    ensures TableFromStore(st)
  {
    if list != [] {
      TableReadsBack(list);
    }
  }

  lemma LoadKeepsConsistent(st: State, outcome: LoadOutcome)
    requires Consistent(st)
    ensures Consistent(LoadEmployees(st, outcome).state)
  {
    if outcome.Loaded? {
      RenderedStoreIsShown(LoadEmployees(st, outcome).state, outcome.records);
    }
  }

  /** Every transition keeps the label in step with the session and the table within the store. */
  lemma NextKeepsConsistent(st: State, ev: Event)
    requires Consistent(st)
    ensures Consistent(Next(st, ev).state)
  {
    match ev
    case PageLoad(load) => LoadKeepsConsistent(st, load);
    case FormInput(_) =>
    case SearchInput(text) =>
      var s := SearchTyped(st, text);
      if s.table.Rows? {
        RenderedStoreIsShown(s, FilterEmployees(st.employees, text));
      }
    case EditClick(_) =>
    case SubmitForm(save, reload) =>
      if Validate(st.form.fields).Accepted? && save == Saved {
        LoadKeepsConsistent(ClearForm(st), reload);
      }
    case DeleteClick(id, confirmed, outcome, reload) =>
      if HasId(st.employees, id) && confirmed && outcome == Deleted {
        LoadKeepsConsistent(st, reload);
      }
    case EscapeKey =>
      RenderedStoreIsShown(EscapePressed(st), st.employees);
  }

  /** The state after a sequence of events. */
  function Run(st: State, events: seq<Event>): State
    decreases |events|
  {
    if events == [] then st else Run(Next(st, events[0]).state, events[1..])
  }

  /** Every state the page reaches from its initial state is consistent. */
  lemma {:induction false} RunKeepsConsistent(st: State, events: seq<Event>)
    requires Consistent(st)
    ensures Consistent(Run(st, events))
    decreases |events|
  {
    if events != [] {
      NextKeepsConsistent(st, events[0]);
      RunKeepsConsistent(Next(st, events[0]).state, events[1..]);
    }
  }

  /** Opening an edit session on a record whose id is 0 stores 0 as the session id. */
  lemma EditZeroOpensSession(e: Employee)
    requires e.id == 0
    ensures var edited := EditEmployee(Initial.(employees := [e]), 0).state;
            && edited.editingId == Some(0)
            && edited.submitLabel == UpdateLabel
            && edited.form.fields == DraftOf(e)
  {
    var st := Initial.(employees := [e]);
    assert st.employees[0].id == 0;
  }

  /** A session on id 0 is falsy, so a valid submission sends a create. */
  lemma ZeroSessionSubmitsCreate(st: State, save: SaveOutcome, reload: LoadOutcome)
    requires st.editingId == Some(0)
    requires Validate(st.form.fields).Accepted?
    ensures Submit(st, save, reload).requests[0] == CreateRequest(Validate(st.form.fields).draft)
  {
  }

  /**
   The truthiness test on the edit session: editing a record whose id is 0
   shows "Update Employee", yet submitting sends a create, not an update.
   */
  lemma ZeroIdSubmitsCreate(e: Employee, save: SaveOutcome, reload: LoadOutcome)
    requires e.id == 0
    requires Validate(DraftOf(e)).Accepted?
    ensures var edited := EditEmployee(Initial.(employees := [e]), 0).state;
            && edited.editingId == Some(0)
            && edited.submitLabel == UpdateLabel
            && Submit(edited, save, reload).requests[0] == CreateRequest(Validate(DraftOf(e)).draft)
  {
    EditZeroOpensSession(e);
    ZeroSessionSubmitsCreate(EditEmployee(Initial.(employees := [e]), 0).state, save, reload);
  }

  /** Deleting the record being edited leaves the edit session pointing at an id no longer in the store. */
  lemma DeleteLeavesStaleSession(st: State, id: int, records: seq<Employee>)
    requires st.editingId == Some(id) && HasId(st.employees, id)
    requires !HasId(records, id)
    ensures var s := DeleteEmployee(st, id, true, Deleted, Loaded(records)).state;
            s.editingId == Some(id) && !HasId(s.employees, id)
  {
  }

  /** A failed or unreadable save keeps store, session and form, so the user can retry. */
  lemma FailedSaveKeepsForm(st: State, save: SaveOutcome, reload: LoadOutcome)
    requires save != Saved
    ensures Submit(st, save, reload).state == st
  {
  }

  lemma EscapeIdempotent(st: State)
    ensures EscapePressed(EscapePressed(st)) == EscapePressed(st)
  {
  }

  /**
   An accepted form submitted outside an edit session, or in one on id 0,
   creates the trimmed record and reloads.
   */
  lemma SubmitValidCreates(st: State, reload: LoadOutcome)
    requires Validate(st.form.fields).Accepted? && !Truthy(st.editingId)
    ensures var s := Submit(st, Saved, reload);
            && s.requests == [CreateRequest(Validate(st.form.fields).draft), ListRequest]
            && s.state == LoadEmployees(ClearForm(st), reload).state
  {
  }

  /**
   An accepted form submitted in an edit session on a non-zero id updates that
   record with the trimmed fields and reloads.
   */
  lemma SubmitValidUpdates(st: State, reload: LoadOutcome)
    requires Validate(st.form.fields).Accepted? && Truthy(st.editingId)
    ensures var s := Submit(st, Saved, reload);
            && s.requests == [UpdateRequest(st.editingId.value, Validate(st.form.fields).draft), ListRequest]
            && s.state == LoadEmployees(ClearForm(st), reload).state
  {
  }

  function RecordOf(id: int, d: Draft): Employee {
    Employee(id, d.firstName, d.lastName, d.email, d.role)
  }

  /** A successful load ends with the loaded records in store and on screen, and the session as it was. */
  lemma LoadKeepsStore(st: State, records: seq<Employee>)
    ensures var s := LoadEmployees(st, Loaded(records)).state;
            s.employees == records && s.table == RenderEmployeeTable(records) && s.editingId == st.editingId
  {
  }

  // The create-edit-update-delete walk-through of one record, one transition at a time,
  // for any drafts the form accepts and any non-zero id the server assigns.

  /** Creating on an empty store sends the draft, and the reload shows the new record as one row. */
  lemma WalkthroughCreate(st: State, first: Draft, id: int)
    requires st.employees == [] && st.editingId == None
    requires Validate(first) == Accepted(first)
    ensures var created := Submit(FormTyped(st, first), Saved, Loaded([RecordOf(id, first)]));
            && created.requests == [CreateRequest(first), ListRequest]
            && created.state.employees == [RecordOf(id, first)]
            && created.state.table == RenderEmployeeTable([RecordOf(id, first)])
            && created.state.editingId == None
  {
    var typed := FormTyped(st, first);
    var reload := Loaded([RecordOf(id, first)]);
    assert !Truthy(typed.editingId);
    SubmitValidCreates(typed, reload);
    LoadKeepsStore(ClearForm(typed), [RecordOf(id, first)]);
  }

  /** Editing the only record opens a session on its id with the form filled from it. */
  lemma WalkthroughEdit(st: State, first: Draft, id: int)
    requires st.employees == [RecordOf(id, first)]
    ensures var editing := EditEmployee(st, id).state;
            editing.editingId == Some(id) && editing.submitLabel == UpdateLabel && editing.form.fields == first
            && editing.employees == st.employees
  {
    assert st.employees[0].id == id;
  }

  /** Submitting another accepted draft in that session updates the id and shows the reloaded record. */
  lemma WalkthroughUpdate(st: State, second: Draft, id: int)
    requires st.editingId == Some(id) && id != 0
    requires Validate(second) == Accepted(second)
    ensures var updated := Submit(FormTyped(st, second), Saved, Loaded([RecordOf(id, second)]));
            && updated.requests == [UpdateRequest(id, second), ListRequest]
            && updated.state.employees == [RecordOf(id, second)]
            && updated.state.table == RenderEmployeeTable([RecordOf(id, second)])
            && updated.state.editingId == None
  {
    var typed := FormTyped(st, second);
    var reload := Loaded([RecordOf(id, second)]);
    assert Truthy(typed.editingId);
    SubmitValidUpdates(typed, reload);
    LoadKeepsStore(ClearForm(typed), [RecordOf(id, second)]);
  }

  /** Deleting the only record with confirmation sends the delete, and the empty reload shows the placeholder. */
  lemma WalkthroughDelete(st: State, second: Draft, id: int)
    requires st.employees == [RecordOf(id, second)]
    ensures var deleted := DeleteEmployee(st, id, true, Deleted, Loaded([]));
            deleted.requests == [DeleteRequest(id), ListRequest] && deleted.state.table == NoEmployees
  {
    assert st.employees[0].id == id;
  }

  /** The sample drafts of the walk-through pass validation. */
  lemma SampleDraftsAreValid()
    ensures Validate(Draft("Ann", "Lee", "ann@x.com", "Eng")) == Accepted(Draft("Ann", "Lee", "ann@x.com", "Eng"))
    ensures Validate(Draft("Ann", "Lee", "ann@x.com", "Lead")) == Accepted(Draft("Ann", "Lee", "ann@x.com", "Lead"))
  {
    assert MatchesAt("ann@x.com", 3, 5);
    assert IsClean(Draft("Ann", "Lee", "ann@x.com", "Eng"));
    CleanValidDraftAccepted(Draft("Ann", "Lee", "ann@x.com", "Eng"));
    assert IsClean(Draft("Ann", "Lee", "ann@x.com", "Lead"));
    CleanValidDraftAccepted(Draft("Ann", "Lee", "ann@x.com", "Lead"));
  }

}

=== FILE: ascii.dfy ===
/**
 The string primitives the console script relies on, restricted to ASCII:
 whitespace as `trim()` and the regular-expression class `\s` see it,
 `toLowerCase()`, `String.prototype.includes` and the decimal form of an id.
 */
module Ascii {

  /** ASCII whitespace: space, tab, line feed, vertical tab, form feed, carriage return. */
  predicate IsSpace(c: char) {
    c == ' ' || c == '\t' || c == '\n' || c == '\U{B}' || c == '\U{C}' || c == '\r'
  }

  predicate AllSpace(s: string) {
    forall i :: 0 <= i < |s| ==> IsSpace(s[i])
  }

  predicate NoSpace(s: string) {
    forall i :: 0 <= i < |s| ==> !IsSpace(s[i])
  }

  predicate IsUpper(c: char) {
    'A' <= c <= 'Z'
  }

  /** `toLowerCase()` on one character, ASCII letters only. */
  function LowerChar(c: char): (d: char)
    ensures !IsUpper(d)
    ensures IsUpper(c) ==> d as int == c as int + 32
    ensures !IsUpper(c) ==> d == c
  {
    if IsUpper(c) then (c as int + 32) as char else c
  }

  /** `toLowerCase()` on a string: the same length, each character lowered in place. */
  function Lower(s: string): (r: string)
    ensures |r| == |s|
    ensures forall i :: 0 <= i < |r| ==> r[i] == LowerChar(s[i])
  {
    seq(|s|, i requires 0 <= i < |s| => LowerChar(s[i]))
  }

  /** Lower-casing neither creates nor removes whitespace. */
  lemma LowerKeepsSpace(s: string)
    ensures AllSpace(Lower(s)) <==> AllSpace(s)
  {
    forall i | 0 <= i < |s| ensures IsSpace(Lower(s)[i]) <==> IsSpace(s[i]) {
      assert Lower(s)[i] == LowerChar(s[i]);
    }
  }

  predicate IsLower(s: string) {
    forall i :: 0 <= i < |s| ==> !IsUpper(s[i])
  }

  lemma LowerIsLower(s: string)
    ensures IsLower(Lower(s))
    ensures Lower(Lower(s)) == Lower(s)
  {
  }

  /** Drops leading whitespace; what is dropped is all whitespace and what is kept is a suffix. */
  function TrimStart(s: string): (r: string)
    ensures |r| <= |s| && r == s[|s| - |r|..]
    ensures AllSpace(s[..|s| - |r|])
    ensures r == [] || !IsSpace(r[0])
  {
    if |s| > 0 && IsSpace(s[0]) then
      var r := TrimStart(s[1..]);
      assert s[..|s| - |r|] == [s[0]] + s[1..][..|s| - 1 - |r|];
      r
    else s
  }

  /** Drops trailing whitespace; what is dropped is all whitespace and what is kept is a prefix. */
  function TrimEnd(s: string): (r: string)
    ensures |r| <= |s| && r == s[..|r|]
    ensures AllSpace(s[|r|..])
    ensures r == [] || !IsSpace(r[|r| - 1])
  {
    if |s| > 0 && IsSpace(s[|s| - 1]) then TrimEnd(s[..|s| - 1]) else s
  }

  /**
   `trim()`: the result neither starts nor ends with whitespace, and it is empty
   exactly when `s` is all whitespace. `TrimIsInnerSlice` says what is cut away.
   */
  function Trim(s: string): (r: string)
    ensures r != [] ==> !IsSpace(r[0]) && !IsSpace(r[|r| - 1])
    ensures r == [] <==> AllSpace(s)
  {
    var t := TrimStart(s);
    var r := TrimEnd(t);
    var lo := |s| - |t|;
    assert t != [] ==> !IsSpace(s[lo]);
    assert r == [] ==> t[|r|..] == t;
    assert t == [] ==> s[..lo] == s;
    r
  }

  /** `t` is a slice of `s` with nothing but whitespace on either side of it. */
  ghost predicate InnerSlice(t: string, s: string) {
    exists lo :: 0 <= lo <= |s| - |t| && s[lo..lo + |t|] == t && AllSpace(s[..lo]) && AllSpace(s[lo + |t|..])
  }

  /** The trimmed string is the slice of `s` left between two runs of whitespace. */
  lemma TrimIsInnerSlice(s: string)
    ensures InnerSlice(Trim(s), s)
  {
    var t := TrimStart(s);
    var r := TrimEnd(t);
    var lo := |s| - |t|;
    assert s[lo..lo + |r|] == r;
    assert s[lo + |r|..] == t[|r|..];
  }

  lemma TrimIdempotent(s: string)
    ensures Trim(Trim(s)) == Trim(s)
  {
    var r := Trim(s);
    assert TrimStart(r) == r;
    assert TrimEnd(r) == r;
  }

  /** A string that neither starts nor ends with whitespace is its own trim. */
  lemma TrimFixesTrimmed(s: string)
    requires s != [] && !IsSpace(s[0]) && !IsSpace(s[|s| - 1])
    ensures Trim(s) == s
  {
    assert TrimStart(s) == s;
    assert TrimEnd(s) == s;
  }

  lemma LowerSlice(s: string, lo: nat, hi: nat)
    requires IsLower(s) && lo <= hi <= |s|
    ensures IsLower(s[lo..hi])
  {
    forall i | 0 <= i < hi - lo ensures !IsUpper(s[lo..hi][i]) {
      assert s[lo..hi][i] == s[lo + i];
    }
  }

  /** Trimming a lower-cased string keeps it lower-case. */
  lemma TrimKeepsLower(s: string)
    requires IsLower(s)
    ensures IsLower(Trim(s))
  {
    var t := TrimStart(s);
    LowerSlice(s, |s| - |t|, |s|);
    LowerSlice(t, 0, |TrimEnd(t)|);
  }

  /** `needle` occurs in `hay` starting at index `i`. */
  ghost predicate OccursAt(hay: string, needle: string, i: int) {
    0 <= i && i + |needle| <= |hay| && hay[i..i + |needle|] == needle
  }

  ghost predicate IsSubstring(needle: string, hay: string) {
    exists i :: OccursAt(hay, needle, i)
  }

  /** `hay.includes(needle)`, scanning start positions from the left. */
  predicate Includes(hay: string, needle: string)
    decreases |hay|
  {
    needle <= hay || (|hay| > 0 && Includes(hay[1..], needle))
  }

  lemma {:induction false} IncludesIsSubstring(hay: string, needle: string)
    ensures Includes(hay, needle) <==> IsSubstring(needle, hay)
    decreases |hay|
  {
    if needle <= hay {
      assert OccursAt(hay, needle, 0);
    } else if |hay| == 0 {
      forall i ensures !OccursAt(hay, needle, i) {
      }
    } else {
      IncludesIsSubstring(hay[1..], needle);
      if Includes(hay[1..], needle) {
        var i :| OccursAt(hay[1..], needle, i);
        assert hay[i + 1..i + 1 + |needle|] == hay[1..][i..i + |needle|];
        assert OccursAt(hay, needle, i + 1);
      }
      if IsSubstring(needle, hay) {
        var i :| OccursAt(hay, needle, i);
        if i == 0 {
          assert false;
        } else {
          assert hay[1..][i - 1..i - 1 + |needle|] == hay[i..i + |needle|];
          assert OccursAt(hay[1..], needle, i - 1);
        }
      }
    }
  }

  predicate IsDigit(c: char) {
    '0' <= c <= '9'
  }

  function DigitChar(d: nat): (c: char)
    requires d < 10
    ensures IsDigit(c) && c as int - '0' as int == d
  {
    ('0' as int + d) as char
  }

  function DigitValue(c: char): nat
    requires IsDigit(c)
  {
    c as int - '0' as int
  }

  /** `n.toString()` for a non-negative integer: digits only, no leading zero. */
  function NatToDecimal(n: nat): (s: string)
    ensures |s| > 0
    ensures forall i :: 0 <= i < |s| ==> IsDigit(s[i])
    ensures |s| > 1 ==> s[0] != '0'
    decreases n
  {
    if n < 10 then [DigitChar(n)] else NatToDecimal(n / 10) + [DigitChar(n % 10)]
  }

  /** The number a string of decimal digits denotes. */
  function DecimalValue(s: string): nat
    requires forall i :: 0 <= i < |s| ==> IsDigit(s[i])
  {
    if s == [] then 0 else 10 * DecimalValue(s[..|s| - 1]) + DigitValue(s[|s| - 1])
  }

  lemma {:induction false} DecimalRoundTrip(n: nat)
    ensures DecimalValue(NatToDecimal(n)) == n
    decreases n
  {
    var s := NatToDecimal(n);
    if n >= 10 {
      assert s[..|s| - 1] == NatToDecimal(n / 10);
      DecimalRoundTrip(n / 10);
    }
  }

  /** `id.toString()` for an integer id: a minus sign before the digits of a negative one. */
  function IntToDecimal(i: int): (s: string)
    ensures IsDecimal(s)
    ensures s[0] == '-' <==> i < 0
    ensures var digits := if i < 0 then s[1..] else s;
            |digits| > 0 && (|digits| > 1 ==> digits[0] != '0')
  {
    if i < 0 then "-" + NatToDecimal(-i) else NatToDecimal(i)
  }

  /** An optional minus sign followed by digits. */
  predicate IsDecimal(s: string) {
    |s| > 0 && (IsDigit(s[0]) || s[0] == '-') && forall k :: 1 <= k < |s| ==> IsDigit(s[k])
  }

  /** Reads back what `IntToDecimal` wrote. */
  function ParseDecimal(s: string): int
    requires IsDecimal(s)
  {
    if s[0] == '-' then -(DecimalValue(s[1..]) as int) else DecimalValue(s)
  }

  lemma IntDecimalRoundTrip(i: int)
    ensures ParseDecimal(IntToDecimal(i)) == i
  {
    if i < 0 {
      assert IntToDecimal(i)[1..] == NatToDecimal(-i);
      DecimalRoundTrip(-i);
    } else {
      DecimalRoundTrip(i);
    }
  }

  /** Distinct ids print differently, so the id column identifies a record. */
  lemma IntToDecimalInjective(i: int, j: int)
    ensures IntToDecimal(i) == IntToDecimal(j) ==> i == j
  {
    IntDecimalRoundTrip(i);
    IntDecimalRoundTrip(j);
  }

}

=== FILE: email.dfy ===
/**
 The script's `isValidEmail`, which tests the pattern `^[^\s@]+@[^\s@]+\.[^\s@]+$`.
 A match is a choice of the `@` position and of the `.` position that the three
 `+` runs end at; the character class `[^\s@]` includes `.`, so the domain part
 may hold further dots.
 */
module Email {

  import opened Ascii

  /** A character of the class `[^\s@]`. */
  predicate IsAddressChar(c: char) {
    !IsSpace(c) && c != '@'
  }

  predicate AllAddressChars(s: string) {
    forall i :: 0 <= i < |s| ==> IsAddressChar(s[i])
  }

  /** The pattern matches `s` with its `@` at index `at` and its `\.` at index `dot`. */
  predicate MatchesAt(s: string, at: int, dot: int) {
    && 0 < at && at + 1 < dot && dot + 1 < |s|
    && s[at] == '@' && s[dot] == '.'
    && AllAddressChars(s[..at])
    && AllAddressChars(s[at + 1..dot])
    && AllAddressChars(s[dot + 1..])
  }

  /** `isValidEmail(email)`: some placement of `@` and `.` makes the anchored pattern match. */
  predicate IsValidEmail(s: string) {
    exists at, dot | 0 <= at < |s| && 0 <= dot < |s| :: MatchesAt(s, at, dot)
  }

  /**
   The shape of an accepted address, stated without the pattern: no whitespace,
   exactly one `@`, something before it, and a `.` after it that is neither the
   first nor the last character of the domain part.
   */
  ghost predicate WellFormedAddress(s: string) {
    && NoSpace(s)
    && exists at :: SoleAt(s, at) && at > 0 && exists dot :: at + 1 < dot < |s| - 1 && s[dot] == '.'
  }

  /** Index `at` holds the only `@` of `s`. */
  ghost predicate SoleAt(s: string, at: int) {
    0 <= at < |s| && s[at] == '@' && forall i :: 0 <= i < |s| && s[i] == '@' ==> i == at
  }

  lemma MatchIsWellFormed(s: string, at: int, dot: int)
    requires MatchesAt(s, at, dot)
    ensures WellFormedAddress(s)
  {
    forall i | 0 <= i < |s| ensures !IsSpace(s[i]) && (s[i] == '@' ==> i == at) {
      if i < at {
        assert s[i] == s[..at][i];
      } else if at < i < dot {
        assert s[i] == s[at + 1..dot][i - at - 1];
      } else if dot < i {
        assert s[i] == s[dot + 1..][i - dot - 1];
      }
    }
    assert SoleAt(s, at);
  }

  lemma WellFormedMatches(s: string)
    requires WellFormedAddress(s)
    ensures IsValidEmail(s)
  {
    var at :| SoleAt(s, at) && at > 0 && exists dot :: at + 1 < dot < |s| - 1 && s[dot] == '.';
    var dot :| at + 1 < dot < |s| - 1 && s[dot] == '.';
    assert MatchesAt(s, at, dot);
  }

  /** An address passes the check exactly when it has the well-formed shape. */
  lemma ValidEmailIffWellFormed(s: string)
    ensures IsValidEmail(s) <==> WellFormedAddress(s)
  {
    if IsValidEmail(s) {
      var at, dot :| 0 <= at < |s| && 0 <= dot < |s| && MatchesAt(s, at, dot);
      MatchIsWellFormed(s, at, dot);
    }
    if WellFormedAddress(s) {
      WellFormedMatches(s);
    }
  }

  /** A bare host after the `@` is rejected; a dotted one is accepted, however many dots it has. */
  lemma EmailExamples()
    ensures !IsValidEmail("a@b")
    ensures IsValidEmail("a@b.c")
    ensures IsValidEmail("a@b.c.d")
    ensures !IsValidEmail("a@.c")
    ensures !IsValidEmail("a b@c.d")
    ensures !IsValidEmail("a@b@c.d")
  {
    assert MatchesAt("a@b.c", 1, 3);
    assert MatchesAt("a@b.c.d", 1, 3);
    ValidEmailIffWellFormed("a@.c");
    ValidEmailIffWellFormed("a b@c.d");
    assert !NoSpace("a b@c.d") by { assert IsSpace("a b@c.d"[1]); }
    ValidEmailIffWellFormed("a@b@c.d");
    assert "a@b@c.d"[1] == '@' && "a@b@c.d"[3] == '@';
  }

}

=== FILE: employees.dfy ===
/** The employee record as the server sends it, the four editable fields, and the form that holds them. */
module Employees {

  import opened Wrappers
  import opened Ascii

  /** One record of `GET /api/employees`; the id is assigned by the server. */
  datatype Employee = Employee(id: int, firstName: string, lastName: string, email: string, role: string)

  /** The editable part of a record, as typed into the form or sent as a request body. */
  datatype Draft = Draft(firstName: string, lastName: string, email: string, role: string)

  /** The form: a hidden id input and the four visible inputs. */
  datatype Form = Form(idField: string, fields: Draft)

  /** What `employeeForm.reset()` followed by clearing the hidden id leaves. */
  const EmptyForm: Form := Form("", Draft("", "", "", ""))

  function DraftOf(e: Employee): Draft {
    Draft(e.firstName, e.lastName, e.email, e.role)
  }

  /** The form as `editEmployee` fills it from a record: the id in the hidden input, the fields verbatim. */
  function FormOf(e: Employee): (f: Form)
    ensures f.fields == DraftOf(e)
    ensures IsDecimal(f.idField)
  {
    Form(IntToDecimal(e.id), DraftOf(e))
  }

  /** The filled form holds the whole record: the hidden input reads back as its id. */
  lemma FormOfReadsBack(e: Employee)
    ensures var f := FormOf(e);
            Employee(ParseDecimal(f.idField), f.fields.firstName, f.fields.lastName, f.fields.email, f.fields.role) == e
  {
    IntDecimalRoundTrip(e.id);
  }

  /** `employees.find(emp => emp.id === id)`: the first record carrying `id`, if any. */
  function FindById(store: seq<Employee>, id: int): (r: Option<Employee>)
    ensures r.None? <==> forall i :: 0 <= i < |store| ==> store[i].id != id
    ensures r.Some? ==> exists i :: 0 <= i < |store| && store[i] == r.value && r.value.id == id
                                    && forall j :: 0 <= j < i ==> store[j].id != id
  {
    if store == [] then None
    else if store[0].id == id then Some(store[0])
    else
      var r := FindById(store[1..], id);
      assert forall i :: 1 <= i < |store| ==> store[i] == store[1..][i - 1];
      r
  }

  predicate HasId(store: seq<Employee>, id: int) {
    exists i :: 0 <= i < |store| && store[i].id == id
  }

}

=== FILE: html.dfy ===
/**
 The script's `escapeHtml`: the five markup-significant characters become
 character references and every other character is copied. `Unescape` is its
 inverse, which shows the escaping loses nothing.
 */
module Html {

  /** The characters `escapeHtml` rewrites. */
  predicate IsSpecial(c: char) {
    c == '&' || c == '<' || c == '>' || c == '"' || c == '\''
  }

  /** The characters that can open or close a tag or an attribute value. */
  predicate IsMarkup(c: char) {
    c == '<' || c == '>' || c == '"' || c == '\''
  }

  predicate MarkupFree(s: string) {
    forall i :: 0 <= i < |s| ==> !IsMarkup(s[i])
  }

  /** The five references `escapeHtml` produces. */
  const Entities: seq<string> := ["&amp;", "&lt;", "&gt;", "&quot;", "&#039;"]

  /** `t` begins with one of the five references. */
  predicate StartsWithEntity(t: string) {
    exists k :: 0 <= k < |Entities| && Entities[k] <= t
  }

  /** The replacement for one character; a non-special character stands for itself. */
  function EscapeChar(c: char): (r: string)
    ensures MarkupFree(r)
    ensures IsSpecial(c) ==> r in Entities
    ensures !IsSpecial(c) ==> r == [c]
  {
    match c
    case '&' => "&amp;"
    case '<' => "&lt;"
    case '>' => "&gt;"
    case '"' => "&quot;"
    case '\'' => "&#039;"
    case _ => [c]
  }

  /** `escapeHtml(text)`: the output never contains a character that could start or end markup. */
  function EscapeHtml(s: string): (r: string)
    ensures MarkupFree(r)
    ensures |r| >= |s|
  {
    if s == [] then [] else EscapeChar(s[0]) + EscapeHtml(s[1..])
  }

  /** Decodes the five references back to their characters and copies the rest. */
  function Unescape(s: string): string
    decreases |s|
  {
    if s == [] then []
    else if "&amp;" <= s then "&" + Unescape(s[5..])
    else if "&lt;" <= s then "<" + Unescape(s[4..])
    else if "&gt;" <= s then ">" + Unescape(s[4..])
    else if "&quot;" <= s then "\"" + Unescape(s[6..])
    else if "&#039;" <= s then "'" + Unescape(s[6..])
    else [s[0]] + Unescape(s[1..])
  }

  // One lemma per reference keeps each case's prefix tests apart.

  lemma UnescapeAmp(t: string)
    ensures Unescape("&amp;" + t) == "&" + Unescape(t)
  {
    var e := "&amp;" + t;
    assert "&amp;" <= e && e[5..] == t;
  }

  lemma UnescapeAngles(t: string)
    ensures Unescape("&lt;" + t) == "<" + Unescape(t)
    ensures Unescape("&gt;" + t) == ">" + Unescape(t)
  {
    var lt, gt := "&lt;" + t, "&gt;" + t;
    assert lt[1] == 'l' && "&lt;" <= lt && lt[4..] == t;
    assert gt[1] == 'g' && "&gt;" <= gt && gt[4..] == t;
  }

  lemma UnescapeQuotes(t: string)
    ensures Unescape("&quot;" + t) == "\"" + Unescape(t)
    ensures Unescape("&#039;" + t) == "'" + Unescape(t)
  {
    var quot, apos := "&quot;" + t, "&#039;" + t;
    assert quot[1] == 'q' && "&quot;" <= quot && quot[6..] == t;
    assert apos[1] == '#' && "&#039;" <= apos && apos[6..] == t;
  }

  lemma UnescapePlain(c: char, t: string)
    requires c != '&'
    ensures Unescape([c] + t) == [c] + Unescape(t)
  {
    var e := [c] + t;
    assert e[0] == c && e[1..] == t;
  }

  lemma UnescapeAfterEscapeChar(c: char, t: string)
    ensures Unescape(EscapeChar(c) + t) == [c] + Unescape(t)
  {
    match c
    case '&' => UnescapeAmp(t);
    case '<' => UnescapeAngles(t);
    case '>' => UnescapeAngles(t);
    case '"' => UnescapeQuotes(t);
    case '\'' => UnescapeQuotes(t);
    case _ => UnescapePlain(c, t);
  }

  /** Escaping is undone by `Unescape`, so no two texts escape to the same markup. */
  lemma {:induction false} UnescapeEscape(s: string)
    ensures Unescape(EscapeHtml(s)) == s
  {
    if s != [] {
      UnescapeAfterEscapeChar(s[0], EscapeHtml(s[1..]));
      UnescapeEscape(s[1..]);
    }
  }

  lemma EscapeInjective(a: string, b: string)
    ensures EscapeHtml(a) == EscapeHtml(b) ==> a == b
  {
    UnescapeEscape(a);
    UnescapeEscape(b);
  }

  /** Escaping works character by character, so it distributes over concatenation. */
  lemma {:induction false} EscapeConcat(a: string, b: string)
    ensures EscapeHtml(a + b) == EscapeHtml(a) + EscapeHtml(b)
  {
    if a != [] {
      assert (a + b)[0] == a[0] && (a + b)[1..] == a[1..] + b;
      EscapeConcat(a[1..], b);
    } else {
      assert a + b == b;
    }
  }

  /** Text without any of the five special characters passes through unchanged. */
  lemma {:induction false} EscapePlainText(s: string)
    requires forall i :: 0 <= i < |s| ==> !IsSpecial(s[i])
    ensures EscapeHtml(s) == s
  {
    if s != [] {
      EscapePlainText(s[1..]);
    }
  }

  /** Every `&` in escaped output opens one of the five references: no stray ampersand survives. */
  lemma {:induction false} EscapeAmpersandsAreEntities(s: string)
    ensures forall i :: 0 <= i < |EscapeHtml(s)| && EscapeHtml(s)[i] == '&' ==> StartsWithEntity(EscapeHtml(s)[i..])
  {
    if s != [] {
      var head := EscapeChar(s[0]);
      var tail := EscapeHtml(s[1..]);
      var r := EscapeHtml(s);
      assert r == head + tail;
      EscapeAmpersandsAreEntities(s[1..]);
      forall i | 0 <= i < |r| && r[i] == '&' ensures StartsWithEntity(r[i..]) {
        if i < |head| {
          assert IsSpecial(s[0]);
          assert i == 0;
          var k :| 0 <= k < |Entities| && Entities[k] == head;
          assert Entities[k] <= r[i..];
        } else {
          assert r[i..] == tail[i - |head|..];
          assert tail[i - |head|] == '&';
        }
      }
    }
  }

}

=== FILE: render.dfy ===
/**
 What the table body shows: `renderEmployeeTable`, `renderEmptyState`, and the
 no-match placeholder `filterEmployees` writes over an empty result.
 */
module Render {

  import opened Ascii
  import opened Html
  import opened Employees
  import opened Search

  /**
   One table row: the five cells as markup text, and the id that its Edit and
   Delete buttons pass back to `editEmployee` and `deleteEmployee`.
   */
  datatype Row = Row(idCell: string, firstName: string, lastName: string, email: string, role: string, actionId: int)

  /**
   The table body: rows, the "add your first employee" placeholder, or the
   no-match placeholder. Both placeholders share a "No employees found" heading,
   which is left out; `NoMatch` keeps the text of its paragraph.
   */
  datatype Table = Rows(rows: seq<Row>) | NoEmployees | NoMatch(message: string)

  /** The no-match paragraph, which puts the term between double quotes as it stands. */
  function NoMatchMessage(term: string): string {
    NoMatchPrefix + term + "\""
  }

  const NoMatchPrefix: string := "No employees match your search criteria: \""

  lemma NoMatchPrefixHasNoTag()
    ensures '<' !in NoMatchPrefix
  {
    assert forall k | 0 <= k < |NoMatchPrefix| :: NoMatchPrefix[k] != '<';
  }

  predicate RowMarkupFree(row: Row) {
    MarkupFree(row.idCell) && MarkupFree(row.firstName) && MarkupFree(row.lastName)
    && MarkupFree(row.email) && MarkupFree(row.role)
  }

  /** The record a reader recovers from a row's cells. */
  function ReadRow(row: Row): Employee
    requires IsDecimal(row.idCell)
  {
    Employee(ParseDecimal(row.idCell), Unescape(row.firstName), Unescape(row.lastName), Unescape(row.email), Unescape(row.role))
  }

  /** One `<tr>`: the id printed as a number, the four text fields escaped. */
  function RenderRow(e: Employee): (row: Row)
    ensures IsDecimal(row.idCell) && row.idCell == IntToDecimal(e.id)
    ensures row.firstName == EscapeHtml(e.firstName) && row.lastName == EscapeHtml(e.lastName)
    ensures row.email == EscapeHtml(e.email) && row.role == EscapeHtml(e.role)
    ensures row.actionId == e.id
    ensures RowMarkupFree(row)
  {
    var id := IntToDecimal(e.id);
    assert MarkupFree(id) by {
      assert forall k :: 0 <= k < |id| ==> IsDigit(id[k]) || id[k] == '-';
    }
    Row(id, EscapeHtml(e.firstName), EscapeHtml(e.lastName), EscapeHtml(e.email), EscapeHtml(e.role), e.id)
  }

  /** A row loses nothing: reading its cells gives back the record it was rendered from. */
  lemma RenderRowReadsBack(e: Employee)
    ensures ReadRow(RenderRow(e)) == e
  {
    IntDecimalRoundTrip(e.id);
    UnescapeEscape(e.firstName);
    UnescapeEscape(e.lastName);
    UnescapeEscape(e.email);
    UnescapeEscape(e.role);
  }

  /**
   `renderEmployeeTable(list)`: the placeholder for an empty list, otherwise one
   row per record, in order, each row's buttons carrying its record's id and no
   cell holding a markup character.
   */
  function RenderEmployeeTable(list: seq<Employee>): (t: Table)
    ensures list == [] <==> t == NoEmployees
    ensures !t.NoMatch?
    ensures t.Rows? ==> |t.rows| == |list|
    ensures t.Rows? ==> forall k :: 0 <= k < |t.rows| ==>
              && t.rows[k] == RenderRow(list[k]) && t.rows[k].actionId == list[k].id && RowMarkupFree(t.rows[k])
  {
    if |list| == 0 then NoEmployees else Rows(seq(|list|, k requires 0 <= k < |list| => RenderRow(list[k])))
  }

  /** The rendered table reads back, row by row and in order, as the list it was rendered from. */
  lemma TableReadsBack(list: seq<Employee>)
    requires list != []
    ensures var t := RenderEmployeeTable(list);
            && t.Rows? && |t.rows| == |list|
            && forall k :: 0 <= k < |list| ==> ReadRow(t.rows[k]) == list[k]
  {
    forall k | 0 <= k < |list| ensures ReadRow(RenderEmployeeTable(list).rows[k]) == list[k] {
      RenderRowReadsBack(list[k]);
    }
  }

  /**
   What `filterEmployees` leaves in the table body for the search box text
   `raw`: the whole store for a blank term, else the matching records, and the
   no-match placeholder naming the term when nothing matches.
   */
  function RenderSearch(store: seq<Employee>, raw: string): (t: Table)
    ensures AllSpace(raw) ==> t == RenderEmployeeTable(store)
    ensures !AllSpace(raw) ==> (t.NoMatch? <==> FilterEmployees(store, raw) == [])
    ensures t.NoMatch? ==> t.message == NoMatchMessage(NormalizeTerm(raw))
    ensures t.Rows? ==> t == RenderEmployeeTable(FilterEmployees(store, raw))
    ensures !t.NoEmployees? || store == []
  {
    var term := NormalizeTerm(raw);
    if term == [] then RenderEmployeeTable(store)
    else
      var filtered := FilterEmployees(store, raw);
      var shown := RenderEmployeeTable(filtered);
      if |filtered| == 0 && term != [] then NoMatch(NoMatchMessage(term)) else shown
  }

  lemma MessageShowsTerm(term: string)
    ensures OccursAt(NoMatchMessage(term), term, |NoMatchPrefix|)
  {
    assert NoMatchMessage(term)[|NoMatchPrefix|..|NoMatchPrefix| + |term|] == term;
  }

  /**
   The no-match placeholder shows the normalised term verbatim, unescaped: a
   search for `<b>` over an empty store puts a `<` into the table body.
   */
  lemma NoMatchShowsRawTerm(store: seq<Employee>, raw: string)
    requires RenderSearch(store, raw).NoMatch?
    ensures IsSubstring(NormalizeTerm(raw), RenderSearch(store, raw).message)
  {
    MessageShowsTerm(NormalizeTerm(raw));
  }

  /** The search term `<b>` passes normalisation unchanged, markup and all. */
  lemma NormalizeTag()
    ensures NormalizeTerm("<b>") == "<b>"
  {
    assert Lower("<b>") == "<b>";
    assert TrimStart("<b>") == "<b>";
    assert TrimEnd("<b>") == "<b>";
  }

  /** Over an empty store every non-blank search ends in the no-match placeholder. */
  lemma EmptyStoreNoMatch(raw: string)
    requires !AllSpace(raw)
    ensures RenderSearch([], raw) == NoMatch(NoMatchMessage(NormalizeTerm(raw)))
  {
    assert |FilterEmployees([], raw)| == 0;
  }

  /**
   The placeholder copies the term unescaped: its fixed text holds no `<`, so
   it holds one exactly when the term does.
   */
  lemma NoMatchMessageKeepsTag(term: string)
    ensures '<' in NoMatchMessage(term) <==> '<' in term
  {
    var m := NoMatchMessage(term);
    NoMatchPrefixHasNoTag();
    assert m == NoMatchPrefix + term + "\"";
    if '<' in term {
      var i :| 0 <= i < |term| && term[i] == '<';
      assert m[|NoMatchPrefix| + i] == '<';
    }
    if '<' in m {
      var j :| 0 <= j < |m| && m[j] == '<';
      assert |NoMatchPrefix| <= j < |NoMatchPrefix| + |term|;
      assert term[j - |NoMatchPrefix|] == '<';
    }
  }

  /**
   Whenever a search ends in the no-match placeholder and the normalised term
   holds a `<`, the placeholder text holds a `<` too, which no cell of a rendered
   row ever does.
   */
  lemma NoMatchIsNotEscaped(store: seq<Employee>, raw: string)
    requires RenderSearch(store, raw).NoMatch?
    requires '<' in NormalizeTerm(raw)
    ensures '<' in RenderSearch(store, raw).message
  {
    NoMatchMessageKeepsTag(NormalizeTerm(raw));
  }

}

=== FILE: search.dfy ===
/**
 The script's `filterEmployees`: lower-case and trim the search box, and keep
 the records whose first name, last name, email or role (lower-cased), or
 whose decimal id, contains the term. The store is only read.
 */
module Search {

  import opened Ascii
  import opened Employees

  /** `searchInput.value.toLowerCase().trim()`. */
  function NormalizeTerm(raw: string): (t: string)
    ensures IsLower(t)
    ensures t == [] <==> AllSpace(raw)
    ensures t != [] ==> !IsSpace(t[0]) && !IsSpace(t[|t| - 1])
  {
    TrimmedLowerFacts(raw);
    Trim(Lower(raw))
  }

  lemma TrimmedLowerFacts(raw: string)
    ensures IsLower(Trim(Lower(raw)))
    ensures Trim(Lower(raw)) == [] <==> AllSpace(raw)
  {
    LowerIsLower(raw);
    TrimKeepsLower(Lower(raw));
    LowerKeepsSpace(raw);
  }

  /**
   The term is the lower-cased box text with its outer whitespace cut: a slice
   of `Lower(raw)` with nothing but whitespace on either side of it.
   */
  lemma NormalizeTermIsTrimmedLower(raw: string)
    ensures InnerSlice(NormalizeTerm(raw), Lower(raw))
  {
    TrimIsInnerSlice(Lower(raw));
  }

  /** The callback given to `employees.filter`. */
  predicate MatchesTerm(e: Employee, term: string) {
    || Includes(Lower(e.firstName), term)
    || Includes(Lower(e.lastName), term)
    || Includes(Lower(e.email), term)
    || Includes(Lower(e.role), term)
    || Includes(IntToDecimal(e.id), term)
  }

  /** A record matches exactly when the term is a substring of one of its five searchable texts. */
  lemma MatchesTermMeaning(e: Employee, term: string)
    ensures MatchesTerm(e, term) <==>
            || IsSubstring(term, Lower(e.firstName))
            || IsSubstring(term, Lower(e.lastName))
            || IsSubstring(term, Lower(e.email))
            || IsSubstring(term, Lower(e.role))
            || IsSubstring(term, IntToDecimal(e.id))
  {
    IncludesIsSubstring(Lower(e.firstName), term);
    IncludesIsSubstring(Lower(e.lastName), term);
    IncludesIsSubstring(Lower(e.email), term);
    IncludesIsSubstring(Lower(e.role), term);
    IncludesIsSubstring(IntToDecimal(e.id), term);
  }

  /** The elements of `s[i..]` that `keep` accepts, in order: `Array.prototype.filter` from index `i`. */
  function SelectFrom<T>(s: seq<T>, keep: T -> bool, i: nat): (r: seq<T>)
    requires i <= |s|
    ensures |r| <= |s| - i
    ensures forall k :: 0 <= k < |r| ==> keep(r[k])
    decreases |s| - i
  {
    if i == |s| then []
    else if keep(s[i]) then [s[i]] + SelectFrom(s, keep, i + 1)
    else SelectFrom(s, keep, i + 1)
  }

  /** The indices of `s[i..]` whose elements `keep` accepts, ascending. */
  ghost function KeptFrom<T>(s: seq<T>, keep: T -> bool, i: nat): seq<nat>
    requires i <= |s|
    decreases |s| - i
  {
    if i == |s| then []
    else if keep(s[i]) then [i] + KeptFrom(s, keep, i + 1)
    else KeptFrom(s, keep, i + 1)
  }

  ghost predicate StrictlyIncreasing(s: seq<nat>) {
    forall a, b :: 0 <= a < b < |s| ==> s[a] < s[b]
  }

  /** The kept indices ascend within `[i, |s|)` and the selection reads `s` through them. */
  lemma {:induction false} SelectFromReadsKept<T>(s: seq<T>, keep: T -> bool, i: nat)
    requires i <= |s|
    ensures var r, kept := SelectFrom(s, keep, i), KeptFrom(s, keep, i);
            && |r| == |kept|
            && StrictlyIncreasing(kept)
            && (forall k :: 0 <= k < |kept| ==> i <= kept[k] < |s| && r[k] == s[kept[k]])
    decreases |s| - i
  {
    if i < |s| {
      SelectFromReadsKept(s, keep, i + 1);
      var rest, restKept := SelectFrom(s, keep, i + 1), KeptFrom(s, keep, i + 1);
      if keep(s[i]) {
        var r, kept := [s[i]] + rest, [i] + restKept;
        assert forall k :: 1 <= k < |kept| ==> kept[k] == restKept[k - 1] && r[k] == rest[k - 1];
      }
    }
  }

  /** An index of `[i, |s|)` is kept exactly when `keep` accepts its element. */
  lemma {:induction false} KeptFromExact<T>(s: seq<T>, keep: T -> bool, i: nat)
    requires i <= |s|
    ensures forall j :: i <= j < |s| ==> (j in KeptFrom(s, keep, i) <==> keep(s[j]))
    ensures forall j :: j in KeptFrom(s, keep, i) ==> i <= j < |s|
    decreases |s| - i
  {
    if i < |s| {
      KeptFromExact(s, keep, i + 1);
    }
  }

  /** The search box's test as a function value, so every selection by one term shares it. */
  function MatcherFor(term: string): Employee -> bool {
    e => MatchesTerm(e, term)
  }

  /** `filterEmployees`' choice of what to show: the store itself for a blank term, else the matches. */
  function FilterEmployees(store: seq<Employee>, raw: string): (r: seq<Employee>)
    ensures AllSpace(raw) ==> r == store
    ensures |r| <= |store|
    ensures forall k :: 0 <= k < |r| ==> r[k] in store
  {
    var term := NormalizeTerm(raw);
    SelectFromReadsKept(store, MatcherFor(term), 0);
    if term == [] then store else SelectFrom(store, MatcherFor(term), 0)
  }

  /** `r` reads `s` through the ascending index list `kept`, one index per element. */
  ghost predicate SelectsThrough<T>(r: seq<T>, s: seq<T>, kept: seq<nat>) {
    && |kept| == |r|
    && StrictlyIncreasing(kept)
    && (forall k :: 0 <= k < |kept| ==> kept[k] < |s| && r[k] == s[kept[k]])
  }

  /** `SelectFrom` from index 0 is an ordered selection of exactly the accepted elements. */
  lemma SelectionHasIndices<T>(s: seq<T>, keep: T -> bool)
    ensures exists kept: seq<nat> ::
              && SelectsThrough(SelectFrom(s, keep, 0), s, kept)
              && (forall j :: 0 <= j < |s| ==> (j in kept <==> keep(s[j])))
  {
    SelectFromReadsKept(s, keep, 0);
    KeptFromExact(s, keep, 0);
    var kept := KeptFrom(s, keep, 0);
    assert SelectsThrough(SelectFrom(s, keep, 0), s, kept);
  }

  /** Selecting by a term keeps exactly the records that match it, in store order. */
  lemma MatchingIsOrderedSelection(store: seq<Employee>, term: string)
    ensures exists kept: seq<nat> ::
              && SelectsThrough(SelectFrom(store, MatcherFor(term), 0), store, kept)
              && (forall j :: 0 <= j < |store| ==> (j in kept <==> MatchesTerm(store[j], term)))
  {
    var keep := MatcherFor(term);
    SelectionHasIndices(store, keep);
    var kept: seq<nat> :| && SelectsThrough(SelectFrom(store, keep, 0), store, kept)
                         && (forall j :: 0 <= j < |store| ==> (j in kept <==> keep(store[j])));
    forall j | 0 <= j < |store|
      ensures j in kept <==> MatchesTerm(store[j], term)
    {
      assert keep(store[j]) == MatchesTerm(store[j], term);
    }
  }

}

=== FILE: search_properties.dfy ===
/** What `filterEmployees` shows, stated against the store it filters. */
module SearchProperties {

  import opened Ascii
  import opened Employees
  import opened Search

  /** For a non-blank term the search box selects by the normalised term. */
  lemma FilterSelectsByTerm(store: seq<Employee>, raw: string)
    requires !AllSpace(raw)
    ensures FilterEmployees(store, raw) == SelectFrom(store, MatcherFor(NormalizeTerm(raw)), 0)
  {
  }

  /**
   For a non-blank term the result keeps exactly the records that match, in
   store order: there is an ascending index list naming precisely the matching
   positions, and the result reads the store through it.
   */
  lemma FilterIsOrderedSelection(store: seq<Employee>, raw: string)
    requires !AllSpace(raw)
    ensures exists kept: seq<nat> ::
              && SelectsThrough(FilterEmployees(store, raw), store, kept)
              && (forall j :: 0 <= j < |store| ==> (j in kept <==> MatchesTerm(store[j], NormalizeTerm(raw))))
  {
    FilterSelectsByTerm(store, raw);
    MatchingIsOrderedSelection(store, NormalizeTerm(raw));
  }

}

=== FILE: validation.dfy ===
/**
 The checks `handleFormSubmit` makes before any request: trim the four fields,
 refuse if any is empty, then refuse an email the pattern rejects. The
 empty-field check comes first, so its message wins when both fail.
 */
module Validation {

  import opened Ascii
  import opened Email
  import opened Employees

  datatype Verdict = Accepted(draft: Draft) | MissingFields | InvalidEmail

  const MissingFieldsMessage: string := "Please fill in all required fields."
  const InvalidEmailMessage: string := "Please enter a valid email address."

  /** The four fields with `trim()` applied: blank fields become empty, the rest lose their padding. */
  function TrimDraft(d: Draft): (r: Draft)
    ensures HasBlankField(d) <==> (r.firstName == [] || r.lastName == [] || r.email == [] || r.role == [])
    ensures !HasBlankField(d) ==> IsClean(r)
  {
    Draft(Trim(d.firstName), Trim(d.lastName), Trim(d.email), Trim(d.role))
  }

  /** Some field holds nothing but whitespace. */
  predicate HasBlankField(d: Draft) {
    AllSpace(d.firstName) || AllSpace(d.lastName) || AllSpace(d.email) || AllSpace(d.role)
  }

  /** No field is empty and none starts or ends with whitespace. */
  predicate IsClean(d: Draft) {
    && d.firstName != [] && !IsSpace(d.firstName[0]) && !IsSpace(d.firstName[|d.firstName| - 1])
    && d.lastName != [] && !IsSpace(d.lastName[0]) && !IsSpace(d.lastName[|d.lastName| - 1])
    && d.email != [] && !IsSpace(d.email[0]) && !IsSpace(d.email[|d.email| - 1])
    && d.role != [] && !IsSpace(d.role[0]) && !IsSpace(d.role[|d.role| - 1])
  }

  /** The verdict on the raw form fields. */
  function Validate(raw: Draft): (v: Verdict)
    ensures v == MissingFields <==> HasBlankField(raw)
    ensures v == InvalidEmail <==> !HasBlankField(raw) && !IsValidEmail(Trim(raw.email))
    ensures v.Accepted? ==> IsClean(v.draft) && IsValidEmail(v.draft.email) && v.draft == TrimDraft(raw)
  {
    var d := TrimDraft(raw);
    assert HasBlankField(raw) <==> d.firstName == [] || d.lastName == [] || d.email == [] || d.role == [];
    if d.firstName == [] || d.lastName == [] || d.email == [] || d.role == [] then MissingFields
    else if !IsValidEmail(d.email) then InvalidEmail
    else Accepted(d)
  }

  function RejectionMessage(v: Verdict): (m: string)
    requires !v.Accepted?
    ensures m == MissingFieldsMessage <==> v == MissingFields
    ensures v == InvalidEmail ==> m == InvalidEmailMessage
  {
    if v == MissingFields then MissingFieldsMessage else InvalidEmailMessage
  }

  /** A blank field is reported as such even when the email is malformed as well. */
  lemma MissingFieldsTakesPrecedence(raw: Draft)
    requires HasBlankField(raw)
    requires !IsValidEmail(Trim(raw.email))
    ensures Validate(raw) == MissingFields
    ensures RejectionMessage(Validate(raw)) == MissingFieldsMessage
  {
  }

  /** A draft with no blank or padded field is left as it is by trimming. */
  lemma TrimDraftFixesClean(d: Draft)
    requires IsClean(d)
    ensures TrimDraft(d) == d
  {
    TrimFixesTrimmed(d.firstName);
    TrimFixesTrimmed(d.lastName);
    TrimFixesTrimmed(d.email);
    TrimFixesTrimmed(d.role);
  }

  /** A clean draft with a valid email is accepted as it stands. */
  lemma CleanValidDraftAccepted(d: Draft)
    requires IsClean(d) && IsValidEmail(d.email)
    ensures Validate(d) == Accepted(d)
  {
    TrimDraftFixesClean(d);
    assert !AllSpace(d.firstName) && !AllSpace(d.lastName) && !AllSpace(d.email) && !AllSpace(d.role);
  }

  /** Validating what validation accepted accepts it unchanged. */
  lemma ValidateIdempotent(raw: Draft)
    requires Validate(raw).Accepted?
    ensures Validate(Validate(raw).draft) == Validate(raw)
  {
    var d := Validate(raw).draft;
    TrimIdempotent(raw.firstName);
    TrimIdempotent(raw.lastName);
    TrimIdempotent(raw.email);
    TrimIdempotent(raw.role);
  }

}

=== FILE: wrappers.dfy ===
/** The optional value used wherever the script holds `null` or a missing result. */
module Wrappers {

  datatype Option<+T> = None | Some(value: T)

}
